=== FILE: README.md ===
# Soil-moisture and proximity alert sketch — Dafny model

This project models the event logic of an Arduino sketch (`main.cpp`) that
raises an alert LED when the button is held, an ultrasonic sensor sees an
obstacle closer than 100 cm and the soil moisture reading is below 400, and
that toggles a second LED once per acknowledged timer tick; ticks that pile up
before a loop pass count once.

Two interrupt handlers and the polling `loop()` share a handful of `volatile`
globals. The model gathers those globals and the two LED outputs into one
immutable record, `Sketch.State`, and treats each handler and each pass of
`loop()` as an atomic transition on it:

- `Sketch.TimerTick` is the Timer 1 compare-match interrupt. It only raises `timerFlag`.
- `Sketch.PinChange` is the pin-change interrupt. It re-samples the button on every
  firing. A high echo stamps `echoStart`. A low echo stamps `echoEnd` and raises `echoDone`.
- `Sketch.LoopStep` is one pass of `loop()`. It consumes a completed measurement
  (`calculateDistance`, then `shouldTurnOnLED`, then the alert LED). It also
  acknowledges a pending tick by toggling the blink LED.

The modules follow the sketch's parts:

- `Uint32`: the 32-bit `unsigned long` arithmetic of the AVR toolchain.
- `Sensing`: the pulse width, the distance conversion and the alert decision.
- `Sketch`: the state and the three transitions.
- `Traces`: finite executions, i.e. sequences of interrupt firings and loop
  passes. This is where tick coalescing, blink parity and "each measurement is
  read at most once" are proved.

Hardware inputs are parameters:

- the `micros()` timestamp is the `now` argument of a pin change;
- `digitalRead` levels are `Level` arguments;
- the `analogRead` moisture value is the `moisture` argument of a loop pass.

The floating-point division `/ 29.1` of the half width, truncated to `long`,
is a parameter `toCm` of type `Sensing.Conversion`. The halving before it is
unsigned integer division (`Sensing.HalfWidth`). Every property of the loop holds
for any conversion. `Sensing.ExactCm` is the exact-arithmetic reading of that
step, `floor(half / 29.1)`. The threshold and scenario lemmas use it.

Behaviour kept as the code has it:

- The pulse width is an unsigned 32-bit difference. When `echoEnd < echoStart`
  the width is `echoEnd + 2^32 - echoStart`. That is the true elapsed time if
  `micros()` rolled over during the pulse, and a very large width if the stamps
  are out of order (a stale or re-stamped start) (`Sensing.RolloverWidths`).
- A negative distance cannot occur: `echoEnd - echoStart` is `unsigned long` and
  wraps (`Sensing.PulseWidth`).
- Any pin-change firing that sees the echo line low completes a measurement.
  That includes a button press or release while the echo line is idle. The
  width is then measured from a stale start stamp (`Sketch.SpuriousCompletion`).
- A rising echo edge that arrives while a measurement is still pending
  re-stamps the start. The next pass measures from the new start to the old
  end. When the new start stamp is the later one, that width wraps to a very
  large value (`Sketch.RestampWhilePending`).
- A button change while the echo line is high fires the handler with the echo
  high. It re-stamps the start and so shortens the measured pulse
  (`Sketch.ButtonDuringPulse`).
- Ticks coalesce: the timer handler sets a flag, not a counter.

## Model

| member | source | states |
|---|---|---|
| Uint32.Sub | main.cpp:85 | unsigned subtraction equals the plain difference when no wrap occurs, and the difference plus 2^32 when the end stamp is below the start stamp |
| Uint32.SubUndoesAdd | main.cpp:85 | subtracting the start stamp recovers any elapsed time added to it, across the 2^32 wrap |
| Uint32.SubIsUniqueDifference | main.cpp:85 | the wrapped difference is the one 32-bit value that, added to the start, gives the end (both directions) |
| Sensing.PulseWidth | main.cpp:85 | the pulse width lies in [0, 2^32), takes the start stamp to the end stamp, and is `MODULUS - (start - end)` when the counter wrapped |
| Sensing.RolloverWidths | main.cpp:85 | a rollover of `micros()` during the pulse gives the true small width (1 us, 2910 us); stamps out of order give a width just below 2^32 |
| Sensing.HalfWidth | main.cpp:86 | the half width is the integer quotient of the width by 2 and stays below 2^31 |
| Sensing.ExactCm | main.cpp:86 | the exact distance is the largest whole number of centimetres whose 29.1-fold does not exceed the half width |
| Sensing.ShouldTurnOnLed | main.cpp:94-96 | button released, distance at least 100, or moisture at least 400 each force the alert off; all three conditions met turn it on |
| Sensing.Distance | main.cpp:85-86 | the distance is the conversion applied to half the elapsed time, by integer division: half of `end - start` when the end stamp is not below the start, half of `end + 2^32 - start` when the counter wrapped in between |
| Sensing.DistanceShiftInvariant | main.cpp:85-86 | shifting both stamps by the same amount, across the `micros()` wrap or not, leaves the distance unchanged |
| Sensing.AlertMonotone | main.cpp:94-96 | lowering moisture or distance never switches a raised alert off |
| Sensing.AlertTable | main.cpp:2-3 | the boundary cases: (399, 99, pressed) is on; 100 cm, moisture 400 or released button are off |
| Sensing.ExactCmThreshold | main.cpp:86 | in exact arithmetic the distance is below 100 cm exactly when the half width is below 2910 us |
| Sensing.ExactDistanceThreshold | main.cpp:85-86 | in exact arithmetic the distance is below 100 cm exactly when the wrapped pulse width is below 5820 us |
| Sensing.ExactDistanceFitsLong | main.cpp:83-86 | in exact arithmetic every distance is non-negative and fits a 32-bit `long` |
| Sensing.ExactDistanceExamples | main.cpp:85-86 | 5820 us gives 100 cm; 2910 us gives 50 cm, also when the stamps straddle the counter wrap |
| Sketch.BootIsQuiet | main.cpp:14-18 | at power-up no tick or measurement is pending and both LEDs are off, so a loop pass before any interrupt changes nothing |
| Sketch.TimerTick | main.cpp:48-50 | a tick raises `timerFlag` and leaves every other field unchanged |
| Sketch.TimerTickIdempotent | main.cpp:48-50 | a second tick before the loop runs leaves the same state as one tick |
| Sketch.PinChange | main.cpp:53-63 | the button is overwritten on every firing; echo high sets only the start stamp; echo low sets the end stamp and the done flag; flags and LEDs are untouched |
| Sketch.LatestButtonSampleWins | main.cpp:53-54 | after two firings the button holds the level sampled by the second, whichever pin moved |
| Sketch.PulseCapture | main.cpp:57-62 | a rising then a falling edge leave a completed measurement whose width is the 32-bit time between the edges, and the next loop pass decides the alert from that width |
| Sketch.SpuriousCompletion | main.cpp:59-62 | a low echo level at any firing completes a measurement using the previous start stamp, and the next loop pass uses it |
| Sketch.CalculateDistance | main.cpp:81-90 | the returned distance is the conversion of the half pulse width; the only state change is clearing `echoDone` |
| Sketch.ServiceEcho | main.cpp:118-123 | with a completed measurement, the alert LED becomes the alert decision on it and `echoDone` clears; without one, nothing changes |
| Sketch.ServiceTimer | main.cpp:126-130 | `timerFlag` ends false; the blink LED toggles exactly when the flag was raised; nothing else changes |
| Sketch.LoopStep | main.cpp:112-131 | after a pass both flags are clear, the blink LED toggled iff a tick was pending, the alert LED was recomputed iff a measurement was pending, and the button and stamps are unchanged |
| Sketch.ServicesCommute | main.cpp:118-130 | the echo branch and the timer branch of the loop give the same state in either order |
| Sketch.LoopStepSettles | main.cpp:112-131 | a second loop pass with no interrupt in between changes nothing, whatever moisture it reads |
| Sketch.RestampWhilePending | main.cpp:57-58 | a rising edge while a measurement is pending replaces the start stamp, and the next pass measures from the new start to the old end |
| Sketch.ButtonDuringPulse | main.cpp:53-58 | a firing during a high echo pulse, such as a button change, re-stamps the start, so the measured width runs from that firing to the falling edge |
| Sketch.ReleasedButtonClearsAlert | main.cpp:118-121 | with the button released, serving a measurement always turns the alert LED off |
| Sketch.BootScenario | main.cpp:112-131 | from power-up, button held, echo high at 1000 us and low at 3910 us, moisture 200: distance 50 cm and the alert LED on |
| Traces.Step | main.cpp:48-131 | a loop pass clears both flags; an interrupt never clears a flag and never drives an LED; a tick raises the tick flag and a low echo completes a measurement |
| Traces.InterruptsKeepLeds | main.cpp:48-63 | over any sequence of interrupts without a loop pass, both LEDs keep their values |
| Traces.RunAppend | main.cpp:112-131 | running two event sequences one after the other is running their concatenation |
| Traces.TicksCoalesce | main.cpp:48-50 | any positive number of consecutive ticks leaves the same state as one tick |
| Traces.BurstTogglesOnce | main.cpp:126-130 | a burst of ticks followed by a loop pass toggles the blink LED exactly once |
| Traces.NoToggleWithoutLoop | main.cpp:126-128 | events without a loop pass toggle nothing: the toggle count is zero and the blink LED keeps its value |
| Traces.BlinkParity | main.cpp:126-128 | along any execution the blink LED ends inverted exactly when the number of acknowledged ticks is odd |
| Traces.TogglesBoundedByTicks | main.cpp:126-128 | blink toggles plus a still-pending tick never exceed ticks received plus one pending at the start |
| Traces.TickFlagPersists | main.cpp:126-127 | a raised tick flag survives every event except a loop pass |
| Traces.TickIsServed | main.cpp:126-128 | the first loop pass after a tick toggles the blink LED |
| Traces.ReadingsBoundedByCaptures | main.cpp:87 | alert recomputations plus a still-pending measurement never exceed falling-edge captures plus one pending at the start |
| Traces.AlertHeldWithoutCapture | main.cpp:118-123 | once its measurement is read, the alert LED keeps its value and no reading happens until a new pulse end is captured |
| Traces.CaptureWaits | main.cpp:59-61 | a completed measurement stays pending through every event except a loop pass |
| Traces.CaptureIsServed | main.cpp:118-121 | with each loop pass atomic, the first loop pass after a pulse end is captured recomputes the alert LED from the stamps and button current at that pass |
| Traces.Execute | main.cpp:112-131 | executing events one at a time reaches the same state as the trace semantics, and its toggle and reading counters obey the tick, capture and parity bounds |

## Left out

- `setup()` (main.cpp:20-45): pin modes, the pin-change mask and the Timer 1 registers. This is hardware configuration. Each `TimerIrq` event stands for one compare match; the model places no constraint on when ticks arrive. Pin-change events stand for changes on the button and echo pins.
- `triggerUltrasonic` (main.cpp:72-78): its pin writes and microsecond delays change none of the modelled state.
- `senseMoisture` and `analogRead` (main.cpp:67-69): the reading is the `moisture` parameter of a loop pass, with no range assumed.
- `micros()` and `digitalRead`: their results are parameters of a pin change.
- `logSensorData` and the timer log line (main.cpp:103-110, main.cpp:129): serial output.
- `updateConditionLED` (main.cpp:98-100) is modelled only as the `alertLed` field. The electrical write is left out.
- Preemption and torn reads of the multi-byte `volatile` variables (main.cpp:14-18). Each handler and each loop pass is an atomic transition, and executions are finite prefixes of the endless `loop()`.
- Traces.CaptureIsServed: holds only for atomic loop passes. In the firmware a falling-edge interrupt that lands after `loop()` has read the stamps (main.cpp:119) and before `calculateDistance` clears `echoDone` (main.cpp:87) is lost: line 87 clears the flag that interrupt just set, so that capture is never read.
- Sketch.CalculateDistance: the distance is the `toCm` parameter applied to the half width. The AVR single-precision value of `/ 29.1` and its truncation to `long` are not modelled, because they are floating-point numerics.
- Sensing.ExactCm: exact division by 29.1. The firmware's 32-bit float division can round differently near a whole number of centimetres, which this function does not model.

=== FILE: sensing.dfy ===
/** The pure calculations of the sketch: echo pulse width, distance, and the alert decision. */
module Sensing {
  import opened Uint32

  /** Moisture readings at or above this (drier soil) never raise the alert. */
  const MOISTURE_THRESHOLD: int := 400
  /** Distances in centimetres at or above this never raise the alert. */
  const DISTANCE_THRESHOLD: int := 100

  /**
   * The floating-point stage of the distance formula: a half pulse width in
   * microseconds divided by 29.1 and truncated to `long`. It is a parameter of the
   * model; `ExactCm` is its reading in exact arithmetic.
   */
  type Conversion = nat -> int

  /** Width of the echo pulse: `echoEnd - echoStart` in 32-bit unsigned arithmetic. */
  function PulseWidth(echoStart: U32, echoEnd: U32): (width: U32)
    ensures Add(echoStart, width) == echoEnd
    ensures echoStart <= echoEnd ==> width == echoEnd - echoStart
    ensures echoEnd < echoStart ==> width == MODULUS - (echoStart - echoEnd)
  {
    Sub(echoEnd, echoStart)
  }

  /**
   * An end stamp below the start stamp is either a `micros()` rollover during the
   * pulse, which still gives the true elapsed time, or stamps out of order, which
   * give a width just below 2^32.
   */
  lemma RolloverWidths()
    ensures PulseWidth(MODULUS - 1, 0) == 1
    ensures PulseWidth(MODULUS - 100, 2810) == 2910
    ensures PulseWidth(10, 5) == MODULUS - 5
  {
  }

  /** One-way travel time: the pulse width halved by unsigned integer division. */
  function HalfWidth(width: U32): (half: nat)
    ensures half * 2 <= width < half * 2 + 2
    ensures half < MODULUS / 2
  {
    width / 2
  }

  /** `calculateDistance` without its flag side effect: the conversion applied to the half width. */
  function Distance(echoStart: U32, echoEnd: U32, toCm: Conversion): (cm: int)
    ensures echoStart <= echoEnd ==> cm == toCm((echoEnd - echoStart) / 2)
    ensures echoEnd < echoStart ==> cm == toCm((echoEnd + MODULUS - echoStart) / 2)
  {
    toCm(HalfWidth(PulseWidth(echoStart, echoEnd)))
  }

  /** `half / 29.1` truncated toward zero, computed exactly (no floating-point rounding). */
  function ExactCm(half: nat): (cm: int)
    ensures 0 <= cm
    ensures cm * 291 <= half * 10 < (cm + 1) * 291
  {
    half * 10 / 291
  }

  /** `shouldTurnOnLED`: the alert condition on moisture, distance and button. */
  function ShouldTurnOnLed(moisture: int, distance: int, button: bool): (on: bool)
    ensures !button ==> !on
    ensures distance >= 100 ==> !on
    ensures moisture >= 400 ==> !on
    ensures button && distance < 100 && moisture < 400 ==> on
  {
    button && distance < DISTANCE_THRESHOLD && moisture < MOISTURE_THRESHOLD
  }

  /** Wetter soil or a closer obstacle never switches a raised alert off. */
  lemma AlertMonotone(moisture: int, distance: int, button: bool, moisture': int, distance': int)
    requires moisture' <= moisture && distance' <= distance
    ensures ShouldTurnOnLed(moisture, distance, button) ==> ShouldTurnOnLed(moisture', distance', button)
  {
  }

  /** The boundary table for the decision. */
  lemma AlertTable()
    ensures ShouldTurnOnLed(399, 99, true)
    ensures !ShouldTurnOnLed(399, 100, true)
    ensures !ShouldTurnOnLed(400, 99, true)
    ensures !ShouldTurnOnLed(100, 50, false)
  {
  }

  /** In exact arithmetic the 100 cm threshold falls at a half width of 2910 microseconds. */
  lemma ExactCmThreshold(half: nat)
    ensures ExactCm(half) < DISTANCE_THRESHOLD <==> half < 2910
  {
  }

  /**
   * In exact arithmetic the distance is under the threshold exactly when the raw
   * pulse, wrap-around included, is shorter than 5820 microseconds.
   */
  lemma ExactDistanceThreshold(echoStart: U32, echoEnd: U32)
    ensures Distance(echoStart, echoEnd, ExactCm) < DISTANCE_THRESHOLD <==> PulseWidth(echoStart, echoEnd) < 5820
  {
    ExactCmThreshold(HalfWidth(PulseWidth(echoStart, echoEnd)));
  }

  /** In exact arithmetic every distance is non-negative and fits a 32-bit signed `long`. */
  lemma ExactDistanceFitsLong(echoStart: U32, echoEnd: U32)
    ensures 0 <= Distance(echoStart, echoEnd, ExactCm) < 0x8000_0000
  {
  }

  /**
   * Only the elapsed time counts: shifting both stamps by the same amount, across
   * the 2^32 wrap of `micros()` or not, leaves the distance unchanged.
   */
  lemma DistanceShiftInvariant(echoStart: U32, echoEnd: U32, shift: U32, toCm: Conversion)
    ensures Distance(Add(echoStart, shift), Add(echoEnd, shift), toCm) == Distance(echoStart, echoEnd, toCm)
  {
  }

  /** Worked distances: 5820 us gives 100 cm, 2910 us gives 50 cm, also across the counter wrap. */
  lemma ExactDistanceExamples()
    ensures Distance(0, 5820, ExactCm) == 100
    ensures Distance(1000, 3910, ExactCm) == 50
    ensures Distance(MODULUS - 100, 2810, ExactCm) == 50
  {
  }
}

=== FILE: sketch.dfy ===
/**
 * The sketch's shared state and its three transitions: the timer interrupt, the
 * pin-change interrupt, and one pass of `loop()`. Each is taken as atomic.
 */
module Sketch {
  import opened Uint32
  import opened Sensing

  /** A digital pin level as `digitalRead` reports it. */
  datatype Level = Low | High

  /**
   * The `volatile` globals written by the interrupts, plus the two LED outputs the
   * loop drives. `button` is the 0/1 value `digitalRead` stored, read as a boolean.
   */
  datatype State = State(
    button: bool,
    echoStart: U32,
    echoEnd: U32,
    echoDone: bool,
    timerFlag: bool,
    alertLed: bool,
    blinkLed: bool)

  /** The globals' initial values; both LED outputs start low. */
  const Boot: State := State(false, 0, 0, false, false, false, false)

  /**
   * At power-up nothing is pending and both LEDs are off, so loop passes before
   * the first interrupt change nothing.
   */
  lemma BootIsQuiet(moisture: int, toCm: Conversion)
    ensures !Boot.timerFlag && !Boot.echoDone && !Boot.alertLed && !Boot.blinkLed
    ensures LoopStep(Boot, moisture, toCm) == Boot
  {
  }

  /** Timer 1 compare-match interrupt: raises the tick flag and does nothing else. */
  function TimerTick(s: State): (t: State)
    ensures t.timerFlag
    ensures t.(timerFlag := s.timerFlag) == s
  {
    s.(timerFlag := true)
  }

  /**
   * Pin-change interrupt for the button and echo pins. The button level is
   * re-sampled on every firing, whichever pin moved. A high echo stamps the pulse
   * start; a low echo stamps the pulse end and marks the measurement complete,
   * also when the firing came from the button.
   */
  function PinChange(s: State, buttonLevel: Level, echoLevel: Level, now: U32): (t: State)
    ensures t.button <==> buttonLevel == High
    ensures echoLevel == High ==> t.echoStart == now && t.echoEnd == s.echoEnd && t.echoDone == s.echoDone
    ensures echoLevel == Low ==> t.echoEnd == now && t.echoDone && t.echoStart == s.echoStart
    ensures t.timerFlag == s.timerFlag && t.alertLed == s.alertLed && t.blinkLed == s.blinkLed
  {
    var sampled := s.(button := buttonLevel == High);
    match echoLevel
    case High => sampled.(echoStart := now)
    case Low => sampled.(echoEnd := now, echoDone := true)
  }

  /** What `calculateDistance` returns, together with the state its flag reset leaves. */
  datatype Measurement = Measurement(distance: int, after: State)

  /**
   * `calculateDistance(echoStart, echoEnd)`: converts the captured pulse and, as a
   * side effect on the globals, clears the completion flag.
   */
  function CalculateDistance(s: State, echoStart: U32, echoEnd: U32, toCm: Conversion): (r: Measurement)
    ensures r.distance == Distance(echoStart, echoEnd, toCm)
    ensures !r.after.echoDone
    ensures r.after.(echoDone := s.echoDone) == s
  {
    Measurement(Distance(echoStart, echoEnd, toCm), s.(echoDone := false))
  }

  /** The echo branch of `loop()`: consume a completed measurement and drive the alert LED. */
  function ServiceEcho(s: State, moisture: int, toCm: Conversion): (t: State)
    ensures !t.echoDone
    ensures s.echoDone ==> (t.alertLed <==> ShouldTurnOnLed(moisture, Distance(s.echoStart, s.echoEnd, toCm), s.button))
    ensures !s.echoDone ==> t == s
    ensures t.(echoDone := s.echoDone, alertLed := s.alertLed) == s
  {
    if s.echoDone then
      var m := CalculateDistance(s, s.echoStart, s.echoEnd, toCm);
      m.after.(alertLed := ShouldTurnOnLed(moisture, m.distance, s.button))
    else
      s
  }

  /** The timer branch of `loop()`: acknowledge a pending tick and toggle the blink LED. */
  function ServiceTimer(s: State): (t: State)
    ensures !t.timerFlag
    ensures t.blinkLed <==> (s.blinkLed != s.timerFlag)
    ensures t.(timerFlag := s.timerFlag, blinkLed := s.blinkLed) == s
  {
    if s.timerFlag then s.(timerFlag := false, blinkLed := !s.blinkLed) else s
  }

  /**
   * One pass of `loop()` with the moisture reading it took. The trigger pulse it
   * emits changes none of the modelled state.
   */
  function LoopStep(s: State, moisture: int, toCm: Conversion): (t: State)
    ensures !t.timerFlag && !t.echoDone
    ensures t.blinkLed <==> (s.blinkLed != s.timerFlag)
    ensures s.echoDone ==> (t.alertLed <==> ShouldTurnOnLed(moisture, Distance(s.echoStart, s.echoEnd, toCm), s.button))
    ensures !s.echoDone ==> t.alertLed == s.alertLed
    ensures t.button == s.button && t.echoStart == s.echoStart && t.echoEnd == s.echoEnd
  {
    ServiceTimer(ServiceEcho(s, moisture, toCm))
  }

  /** The two branches of `loop()` touch disjoint state, so their order does not matter. */
  lemma ServicesCommute(s: State, moisture: int, toCm: Conversion)
    ensures ServiceEcho(ServiceTimer(s), moisture, toCm) == ServiceTimer(ServiceEcho(s, moisture, toCm))
  {
  }

  /** A second tick before the loop runs changes nothing: ticks coalesce. */
  lemma TimerTickIdempotent(s: State)
    ensures TimerTick(TimerTick(s)) == TimerTick(s)
  {
  }

  /**
   * A loop pass consumes every pending event, so a further pass with no interrupt
   * in between, whatever moisture it reads, changes nothing.
   */
  lemma LoopStepSettles(s: State, moisture: int, moisture': int, toCm: Conversion)
    ensures LoopStep(LoopStep(s, moisture, toCm), moisture', toCm) == LoopStep(s, moisture, toCm)
  {
  }

  /** The button value the loop sees is the level sampled by the latest pin change. */
  lemma LatestButtonSampleWins(s: State, b1: Level, e1: Level, n1: U32, b2: Level, e2: Level, n2: U32)
    ensures PinChange(PinChange(s, b1, e1, n1), b2, e2, n2).button <==> b2 == High
  {
  }

  /**
   * A rising then a falling echo edge leave a completed measurement whose width is
   * the 32-bit elapsed time between them, and the next loop pass decides the alert
   * from that width and the button level sampled at the falling edge.
   */
  lemma PulseCapture(s: State, b1: Level, t1: U32, b2: Level, t2: U32, moisture: int, toCm: Conversion)
    ensures var c := PinChange(PinChange(s, b1, High, t1), b2, Low, t2);
      && c.echoDone
      && PulseWidth(c.echoStart, c.echoEnd) == Sub(t2, t1)
      && (LoopStep(c, moisture, toCm).alertLed <==>
            ShouldTurnOnLed(moisture, toCm(HalfWidth(Sub(t2, t1))), b2 == High))
  {
  }

  /**
   * A falling echo level with no rising edge since the last reading (for instance
   * a button press while the echo line is idle low) still completes a measurement,
   * measured from the stale start stamp.
   */
  lemma SpuriousCompletion(s: State, b: Level, now: U32, moisture: int, toCm: Conversion)
    ensures var c := PinChange(s, b, Low, now);
      && c.echoDone
      && (LoopStep(c, moisture, toCm).alertLed <==>
            ShouldTurnOnLed(moisture, Distance(s.echoStart, now, toCm), b == High))
  {
  }

  /**
   * A rising echo edge while a measurement is still pending re-stamps the start,
   * so the next pass measures from the new start to the old end (which wraps to
   * a very large width when the new start is the later stamp).
   */
  lemma RestampWhilePending(s: State, b: Level, now: U32, moisture: int, toCm: Conversion)
    requires s.echoDone
    ensures var c := PinChange(s, b, High, now);
      && c.echoDone
      && (LoopStep(c, moisture, toCm).alertLed <==>
            ShouldTurnOnLed(moisture, Distance(now, s.echoEnd, toCm), b == High))
  {
  }

  /**
   * A button change while the echo line is high fires the handler with the echo
   * high, so it re-stamps the start and shortens the pulse that is measured.
   */
  lemma ButtonDuringPulse(s: State, b1: Level, t1: U32, b2: Level, t2: U32, b3: Level, t3: U32)
    ensures var c := PinChange(PinChange(PinChange(s, b1, High, t1), b2, High, t2), b3, Low, t3);
      && c.echoDone
      && PulseWidth(c.echoStart, c.echoEnd) == Sub(t3, t2)
  {
  }

  /** With the button released, serving a measurement always switches the alert LED off. */
  lemma ReleasedButtonClearsAlert(s: State, moisture: int, toCm: Conversion)
    requires s.echoDone && !s.button
    ensures !LoopStep(s, moisture, toCm).alertLed
  {
  }

  /**
   * From power-up: button held, echo high at 1000 us and low at 3910 us, moisture
   * 200. In exact arithmetic the distance is 50 cm and the alert LED turns on.
   */
  lemma BootScenario()
    ensures var c := PinChange(PinChange(Boot, High, High, 1000), High, Low, 3910);
      && Distance(c.echoStart, c.echoEnd, ExactCm) == 50
      && LoopStep(c, 200, ExactCm).alertLed
  {
  }
}

=== FILE: traces.dfy ===
/**
 * Executions of the sketch as finite sequences of atomic events: interrupt
 * firings interleaved with passes of `loop()`.
 */
module Traces {
  import opened Uint32
  import opened Sensing
  import opened Sketch

  datatype Event =
    | PinChangeIrq(buttonLevel: Level, echoLevel: Level, now: U32)
    | TimerIrq
    | LoopPass(moisture: int)

  /**
   * One atomic event. Only a loop pass clears a flag or drives an LED; the
   * interrupts only raise flags and stamp inputs.
   */
  function Step(s: State, e: Event, toCm: Conversion): (t: State)
    ensures e.LoopPass? ==> !t.timerFlag && !t.echoDone
    ensures !e.LoopPass? ==> (s.timerFlag ==> t.timerFlag) && (s.echoDone ==> t.echoDone)
    ensures !e.LoopPass? ==> t.alertLed == s.alertLed && t.blinkLed == s.blinkLed
    ensures e.TimerIrq? ==> t.timerFlag
    ensures e.PinChangeIrq? && e.echoLevel == Low ==> t.echoDone
  {
    match e
    case PinChangeIrq(b, echo, now) => PinChange(s, b, echo, now)
    case TimerIrq => TimerTick(s)
    case LoopPass(m) => LoopStep(s, m, toCm)
  }

  /** The state after the events, applied in order. */
  function Run(s: State, evs: seq<Event>, toCm: Conversion): State
    decreases |evs|
  {
    if evs == [] then s else Step(Run(s, evs[..|evs| - 1], toCm), evs[|evs| - 1], toCm)
  }

  function Pending(flag: bool): nat
  {
    if flag then 1 else 0
  }

  function CountTicks(evs: seq<Event>): nat
    decreases |evs|
  {
    if evs == [] then 0
    else CountTicks(evs[..|evs| - 1]) + (if evs[|evs| - 1].TimerIrq? then 1 else 0)
  }

  /** Pin-change firings that saw the echo low, i.e. that stamped a pulse end. */
  function CountCaptures(evs: seq<Event>): nat
    decreases |evs|
  {
    if evs == [] then 0
    else
      var e := evs[|evs| - 1];
      CountCaptures(evs[..|evs| - 1]) + (if e.PinChangeIrq? && e.echoLevel == Low then 1 else 0)
  }

  /** Loop passes that found the tick flag raised and so toggled the blink LED. */
  function CountToggles(s: State, evs: seq<Event>, toCm: Conversion): nat
    decreases |evs|
  {
    if evs == [] then 0
    else
      var before := evs[..|evs| - 1];
      CountToggles(s, before, toCm)
        + (if evs[|evs| - 1].LoopPass? && Run(s, before, toCm).timerFlag then 1 else 0)
  }

  /** Loop passes that found a completed measurement and so recomputed the alert LED. */
  function CountReadings(s: State, evs: seq<Event>, toCm: Conversion): nat
    decreases |evs|
  {
    if evs == [] then 0
    else
      var before := evs[..|evs| - 1];
      CountReadings(s, before, toCm)
        + (if evs[|evs| - 1].LoopPass? && Run(s, before, toCm).echoDone then 1 else 0)
  }

  /** Interrupts alone never drive an LED: over events without a loop pass both LEDs keep their values. */
  lemma {:induction false} InterruptsKeepLeds(s: State, evs: seq<Event>, toCm: Conversion)
    requires forall i :: 0 <= i < |evs| ==> !evs[i].LoopPass?
    ensures Run(s, evs, toCm).alertLed == s.alertLed && Run(s, evs, toCm).blinkLed == s.blinkLed
    decreases |evs|
  {
    if evs != [] {
      InterruptsKeepLeds(s, evs[..|evs| - 1], toCm);
    }
  }

  /** Running two traces back to back is running their concatenation. */
  lemma {:induction false} RunAppend(s: State, a: seq<Event>, b: seq<Event>, toCm: Conversion)
    ensures Run(s, a + b, toCm) == Run(Run(s, a, toCm), b, toCm)
    decreases |b|
  {
    if b == [] {
      assert a + b == a;
    } else {
      var last := |b| - 1;
      assert (a + b)[..|a + b| - 1] == a + b[..last];
      RunAppend(s, a, b[..last], toCm);
    }
  }

  /** Any positive number of ticks leaves the same state as one. */
  lemma {:induction false} TicksCoalesce(s: State, n: nat, toCm: Conversion)
    requires n >= 1
    ensures Run(s, seq(n, _ => TimerIrq), toCm) == TimerTick(s)
  {
    var ticks := seq(n, _ => TimerIrq);
    assert ticks[..n - 1] == seq(n - 1, _ => TimerIrq);
    if n == 1 {
      assert ticks[..0] == [];
    } else {
      TicksCoalesce(s, n - 1, toCm);
    }
  }

  /** However many ticks arrive before a loop pass, the blink LED toggles exactly once. */
  lemma BurstTogglesOnce(s: State, n: nat, moisture: int, toCm: Conversion)
    requires n >= 1
    ensures Run(s, seq(n, _ => TimerIrq) + [LoopPass(moisture)], toCm).blinkLed == !s.blinkLed
    ensures CountToggles(s, seq(n, _ => TimerIrq) + [LoopPass(moisture)], toCm) == 1
  {
    var ticks := seq(n, _ => TimerIrq);
    var evs := ticks + [LoopPass(moisture)];
    assert evs[..|evs| - 1] == ticks;
    TicksCoalesce(s, n, toCm);
    NoToggleWithoutLoop(s, ticks, toCm);
  }

  /** A trace without loop passes toggles nothing. */
  lemma {:induction false} NoToggleWithoutLoop(s: State, evs: seq<Event>, toCm: Conversion)
    requires forall i :: 0 <= i < |evs| ==> !evs[i].LoopPass?
    ensures CountToggles(s, evs, toCm) == 0
    ensures Run(s, evs, toCm).blinkLed == s.blinkLed
    decreases |evs|
  {
    if evs != [] {
      NoToggleWithoutLoop(s, evs[..|evs| - 1], toCm);
    }
    InterruptsKeepLeds(s, evs, toCm);
  }

  /**
   * The blink LED has toggled once per acknowledged tick: it ends where it started
   * exactly when the number of toggles is even.
   */
  lemma {:induction false} BlinkParity(s: State, evs: seq<Event>, toCm: Conversion)
    ensures Run(s, evs, toCm).blinkLed == (s.blinkLed != (CountToggles(s, evs, toCm) % 2 == 1))
    decreases |evs|
  {
    if evs != [] {
      BlinkParity(s, evs[..|evs| - 1], toCm);
    }
  }

  /**
   * Ticks can coalesce but are never invented: toggles performed plus a tick still
   * pending never exceed the ticks received plus one pending at the start.
   */
  lemma {:induction false} TogglesBoundedByTicks(s: State, evs: seq<Event>, toCm: Conversion)
    ensures CountToggles(s, evs, toCm) + Pending(Run(s, evs, toCm).timerFlag)
         <= CountTicks(evs) + Pending(s.timerFlag)
    decreases |evs|
  {
    if evs != [] {
      TogglesBoundedByTicks(s, evs[..|evs| - 1], toCm);
    }
  }

  /**
   * A measurement is read at most once: readings plus one still pending never exceed
   * the falling-edge captures plus one pending at the start.
   */
  lemma {:induction false} ReadingsBoundedByCaptures(s: State, evs: seq<Event>, toCm: Conversion)
    ensures CountReadings(s, evs, toCm) + Pending(Run(s, evs, toCm).echoDone)
         <= CountCaptures(evs) + Pending(s.echoDone)
    decreases |evs|
  {
    if evs != [] {
      ReadingsBoundedByCaptures(s, evs[..|evs| - 1], toCm);
    }
  }

  /**
   * Once its measurement has been read, the alert LED holds its value until a new
   * pulse end is captured, whatever ticks, rising edges and loop passes come.
   */
  lemma {:induction false} AlertHeldWithoutCapture(s: State, evs: seq<Event>, toCm: Conversion)
    requires !s.echoDone
    requires forall i :: 0 <= i < |evs| ==> !(evs[i].PinChangeIrq? && evs[i].echoLevel == Low)
    ensures !Run(s, evs, toCm).echoDone
    ensures Run(s, evs, toCm).alertLed == s.alertLed
    ensures CountReadings(s, evs, toCm) == 0
    decreases |evs|
  {
    if evs != [] {
      AlertHeldWithoutCapture(s, evs[..|evs| - 1], toCm);
    }
  }

  /** A raised tick flag survives every event except a loop pass. */
  lemma {:induction false} TickFlagPersists(s: State, evs: seq<Event>, toCm: Conversion)
    requires s.timerFlag
    requires forall i :: 0 <= i < |evs| ==> !evs[i].LoopPass?
    ensures Run(s, evs, toCm).timerFlag
    decreases |evs|
  {
    if evs != [] {
      TickFlagPersists(s, evs[..|evs| - 1], toCm);
    }
  }

  /** No tick is lost entirely: the first loop pass after a tick toggles the blink LED. */
  lemma TickIsServed(s: State, before: seq<Event>, between: seq<Event>, moisture: int, toCm: Conversion)
    requires forall i :: 0 <= i < |between| ==> !between[i].LoopPass?
    ensures var waiting := Run(s, before + [TimerIrq] + between, toCm);
      Run(s, before + [TimerIrq] + between + [LoopPass(moisture)], toCm).blinkLed == !waiting.blinkLed
  {
    var prefix := before + [TimerIrq];
    var evs := prefix + between + [LoopPass(moisture)];
    assert evs[..|evs| - 1] == prefix + between;
    RunAppend(s, prefix, between, toCm);
    assert prefix[..|prefix| - 1] == before;
    TickFlagPersists(Run(s, prefix, toCm), between, toCm);
  }

  /** A completed measurement survives every event except a loop pass. */
  lemma {:induction false} CaptureWaits(s: State, evs: seq<Event>, toCm: Conversion)
    requires s.echoDone
    requires forall i :: 0 <= i < |evs| ==> !evs[i].LoopPass?
    ensures Run(s, evs, toCm).echoDone
    decreases |evs|
  {
    if evs != [] {
      CaptureWaits(s, evs[..|evs| - 1], toCm);
    }
  }

  /**
   * With each loop pass atomic, the first loop pass after a captured pulse end
   * recomputes the alert LED from the stamps and button level current at that pass.
   */
  lemma CaptureIsServed(s: State, before: seq<Event>, b: Level, now: U32, between: seq<Event>,
                        moisture: int, toCm: Conversion)
    requires forall i :: 0 <= i < |between| ==> !between[i].LoopPass?
    ensures var prefix := before + [PinChangeIrq(b, Low, now)];
      var waiting := Run(s, prefix + between, toCm);
      && waiting.echoDone
      && (Run(s, prefix + between + [LoopPass(moisture)], toCm).alertLed <==>
            ShouldTurnOnLed(moisture, Distance(waiting.echoStart, waiting.echoEnd, toCm), waiting.button))
  {
    var prefix := before + [PinChangeIrq(b, Low, now)];
    var evs := prefix + between + [LoopPass(moisture)];
    assert evs[..|evs| - 1] == prefix + between;
    RunAppend(s, prefix, between, toCm);
    assert prefix[..|prefix| - 1] == before;
    CaptureWaits(Run(s, prefix, toCm), between, toCm);
  }

  /**
   * Executes the events one at a time, as the firmware does, counting blink toggles
   * and alert recomputations.
   */
  method Execute(s: State, evs: seq<Event>, toCm: Conversion) returns (t: State, toggles: nat, readings: nat)
    ensures t == Run(s, evs, toCm)
    ensures toggles == CountToggles(s, evs, toCm) && readings == CountReadings(s, evs, toCm)
    ensures toggles + Pending(t.timerFlag) <= CountTicks(evs) + Pending(s.timerFlag)
    ensures readings + Pending(t.echoDone) <= CountCaptures(evs) + Pending(s.echoDone)
    ensures t.blinkLed == (s.blinkLed != (toggles % 2 == 1))
  {
    t, toggles, readings := s, 0, 0;
    var i := 0;
    while i < |evs|
      invariant 0 <= i <= |evs|
      invariant t == Run(s, evs[..i], toCm)
      invariant toggles == CountToggles(s, evs[..i], toCm)
      invariant readings == CountReadings(s, evs[..i], toCm)
    {
      assert evs[..i + 1][..i] == evs[..i];
      var e := evs[i];
      if e.LoopPass? && t.timerFlag {
        toggles := toggles + 1;
      }
      if e.LoopPass? && t.echoDone {
        readings := readings + 1;
      }
      t := Step(t, e, toCm);
      i := i + 1;
    }
    assert evs[..i] == evs;
    TogglesBoundedByTicks(s, evs, toCm);
    ReadingsBoundedByCaptures(s, evs, toCm);
    BlinkParity(s, evs, toCm);
  }
}

=== FILE: uint32.dfy ===
/** Arithmetic on the 32-bit `unsigned long` of the AVR toolchain: results wrap modulo 2^32. */
module Uint32 {

  const MODULUS: int := 0x1_0000_0000

  type U32 = x: int | 0 <= x < 0x1_0000_0000

  /** `a + b` on `unsigned long`. */
  function Add(a: U32, b: U32): (r: U32)
    ensures a + b < MODULUS ==> r == a + b
    ensures a + b >= MODULUS ==> r == a + b - MODULUS
  {
    (a + b) % MODULUS
  }

  /** `a - b` on `unsigned long`: the difference wraps round instead of going negative. */
  function Sub(a: U32, b: U32): (r: U32)
    ensures b <= a ==> r == a - b
    ensures a < b ==> r == a - b + MODULUS
  {
    (a - b) % MODULUS
  }

  /** Subtracting the origin recovers an elapsed time added to it, wrap or no wrap. */
  lemma SubUndoesAdd(origin: U32, elapsed: U32)
    ensures Sub(Add(origin, elapsed), origin) == elapsed
  {
  }

  /** `Sub(a, b)` is the one 32-bit value that, added to `b`, gives back `a`. */
  lemma SubIsUniqueDifference(a: U32, b: U32, d: U32)
    ensures Add(b, d) == a <==> d == Sub(a, b)
  {
  }
}
